=== FILE: README.md ===
# Note app: template serialiser and note handlers

A Dafny model of the core of a small Express note application. It has two parts.

- **The HTML serialiser of lib/template.js.**
  - `list` turns the ordered note names into a `<ul>` of `/topic/<name>` links.
  - `html` places a title, a list fragment, a body and a control string into a fixed page skeleton. Everything is inserted verbatim.
- **The request handlers of routes/topic.js and routes/index.js.** Each handler is a pure transition. It takes a note store (file name to contents), the request's fields and the directory listing the middleware attached. It returns:
  - the new store;
  - an outcome: a page sent, a 302 redirect, an error forwarded to the error middleware (a failed read, or a path Node rejects before any I/O because it holds a NUL character), or an exception thrown inside a filesystem callback;
  - the filesystem calls it made, in order.

Modules:

- `Skeletons` (skeleton.dfy): a page frame with four slots. It says where each slot sits and that a framed page is determined by its slots.
- `Template` (template.dfy): `Item`, `List`, the loop `BuildList`, the page skeleton `Page`, `Html`, and the `Renders` relation between a page and its four parts.
- `NoteStore` (store.dfy):
  - the store as `map<string, string>`;
  - `fs.readFile`, `fs.writeFile`, `fs.rename` and `fs.unlink` on it, each of which the filesystem may refuse;
  - `Rejected`, the paths Node refuses before any I/O (those holding a NUL character);
  - the trace of filesystem calls.
- `Platform` (platform.dfy): the library functions the handlers call, kept opaque in an `Env` record. The base-name function, both `sanitize-html` configurations, `encodeURI`, and the filesystem's refusal of a call (a permission, a full disk, a missing parent directory) are fields of that record. The only assumption made about them is that a base name never contains `/`. A reference `PosixBase` shows that assumption holds for the POSIX definition.
- `Http` (http.dfy): the outcome and response of a handler.
- `Pages` (pages.dfy): the pages the handlers send, as values (`PageView`). `Render` turns each into HTML through `Html`. The fixed page text (forms, links, the delete prompt) is gathered in one `Texts` record, `Source`. Page facts are proved for every such record, so they hold of `Source` in particular.
- `Topic` (topic.dfy): the six `/topic` handlers, and lemmas about which files each can reach.
- `Index` (index.dfy): the home page.
- `Workflows` (workflows.dfy): what a later request sees after an earlier one changed the store.

Behaviour of the code that the model keeps as written:

- **Raw title on the note page.** The view (routes/topic.js:135, :142) puts the requested id into `<title>` unsanitized, while the body and the controls use the sanitized id. `Pages.NotePageRawTitle` states this.
- **Missing note in the update form.** The update form does not check the read error (routes/topic.js:64-86). A missing or unreadable note gives a form whose textarea reads `undefined`, not an error.
- **No escaping in the update form.** The update form embeds the title and text unescaped, and the title attribute values unquoted (routes/topic.js:72-76).
- **Same-name rename.** `fs.rename` has POSIX semantics: renaming an existing file onto itself succeeds and changes nothing (`NoteStore.RenameSelf`).

## Model

| member | source | states |
|---|---|---|
| Template.Item | lib/template.js:27 | one list entry is two copies of the name plus 31 characters of markup |
| Template.ItemShowsName | lib/template.js:27 | the name appears verbatim and unescaped twice in its entry: after `/topic/` in the href, and as the link text |
| Template.List | lib/template.js:24-31 | the list always starts with `<ul>` and ends with `</ul>`, and has at least 31 characters per name besides them |
| Template.ListLength | lib/template.js:24-31 | the list is 9 + Σ(2·\|name\| + 31) characters long |
| Template.ListEmpty | lib/template.js:25-30 | the list is exactly `<ul></ul>` if and only if there are no names |
| Template.BuildList | lib/template.js:24-31 | the loop yields `List`: after `i` rounds the accumulator is `<ul>` followed by the entries of the first `i` names |
| Template.ItemsAppend | lib/template.js:26-28 | the entries of two name sequences put together are the entries of the first followed by the entries of the second |
| Template.ListItemAt | lib/template.js:26-28 | the entry of the `i`-th name sits verbatim in the list, right after the entries of the names before it |
| Template.ListOrder | lib/template.js:26-27 | for `i < j`, the entry of name `i` ends before the entry of name `j` begins, and both appear verbatim |
| Template.PageOverhead | lib/template.js:7-20 | the skeleton adds exactly 170 characters to every page |
| Template.Html | lib/template.js:6-21 | the page is as long as the skeleton (170 characters) plus its four arguments; its layout is stated by `Template.HtmlRenders` and `Template.RendersExactly` |
| Template.HtmlRenders | lib/template.js:6-21 | the page has the skeleton's length plus that of its four arguments; the title sits inside `<title>WEB - …</title>`; list, control and body follow the `<h1>` banner in that order, each verbatim |
| Template.RendersExactly | lib/template.js:6-21 | a page shows the four parts in their slots if and only if it is the page `html` builds from them |
| Template.RendersTitle | lib/template.js:11 | the title slot of a rendered page holds the title verbatim |
| Template.RendersList | lib/template.js:16 | the list slot of a rendered page, right after the banner, holds the list verbatim |
| Template.PageShowsItem | lib/template.js:15-16 | a page whose list slot holds the list of some names shows each name's entry at its offset in that slot |
| Template.TitleOnlyInTitleElement | lib/template.js:7-20 | two pages that differ only in the title agree on all text before and after the title element |
| Skeletons.FillLayout | lib/template.js:7-20 | filling the skeleton frames the page: every piece of fixed text and every argument sits at its computed offset |
| Skeletons.SlotsRebuild | lib/template.js:7-20 | a framed page is the skeleton filled with what its slots hold, so the slots determine the page |
| Pages.RenderShowsParts | routes/topic.js:142-153 | each page a handler sends is the template with that page's title, list, body and control in the slots |
| Pages.PartsList | routes/topic.js:141-142 | every page passes the list of the attached listing as its list argument |
| Pages.PageListsNote | routes/topic.js:141-142 | every page shows the entry of every listed note at its offset in the list slot |
| Pages.NotePageRawTitle | routes/topic.js:135-144 | a note page's `<title>` holds the requested id unsanitized, while its body is the sanitized heading and text |
| NoteStore.ReadFile | routes/topic.js:128-133 | reading yields the contents if and only if the file exists and the read is not refused |
| NoteStore.WriteFile | routes/topic.js:47-48 | unless refused, writing creates or overwrites exactly one file and leaves every other file as it was |
| NoteStore.Rename | routes/topic.js:98-99 | the rename fails if and only if the source is absent or the rename is refused; otherwise the contents move to the target and the source is gone, and nothing else changes |
| NoteStore.Unlink | routes/topic.js:114 | unlinking removes exactly the named file, and fails if and only if it is absent or the unlink is refused |
| NoteStore.RenameSelf | routes/topic.js:98 | renaming an existing note onto itself leaves the store as it was |
| NoteStore.OpKeys | routes/topic.js:98 | a rename names its source and its target; every other call names one file |
| Platform.PosixBase | routes/topic.js:127 | the POSIX base name never contains `/`, and a name without `/` is its own base name |
| Platform.PosixBaseOfPath | routes/topic.js:127 | the base name of `dir/name` is `name`; `../password.txt` gives `password.txt` |
| Platform.PosixEnvValid | routes/topic.js:127 | an environment using the POSIX base name meets the model's one assumption about base names |
| Topic.CreateForm | routes/topic.js:13-33 | the create form leaves the store unchanged, makes no filesystem call, and sends the create page |
| Topic.CreateProcess | routes/topic.js:38-52 | the create handler writes under the raw title. A title Node rejects as a path goes to the error middleware with no write. If the write is refused, the request throws and the store is unchanged. Otherwise the title now maps to the text (overwriting), no other key changes, and the redirect goes to `/topic/` + the URI-encoded title |
| Topic.UpdateForm | routes/topic.js:58-88 | the update form reads only the base name and changes nothing. It shows the note's text, or `undefined` when the note is missing or the read is refused. A base name Node rejects as a path goes to the error middleware with no read |
| Topic.UpdateProcess | routes/topic.js:91-105 | an id or title Node rejects as a path goes to the error middleware with no call and the store unchanged. Otherwise the update handler redirects (to `/topic/` + the unencoded title) if and only if the note exists and neither the rename nor the write is refused. Then the title holds the new text and the old id is gone (if it differs). A failed rename throws with the store unchanged. A refused write after a successful rename throws with the note renamed and still holding its old text |
| Topic.DeleteProcess | routes/topic.js:109-117 | the delete handler unlinks the base-name key and redirects to `/` whether or not the unlink succeeded; the key is gone unless the unlink was refused, and all other notes stay. A base name Node rejects as a path goes to the error middleware with no unlink |
| Topic.View | routes/topic.js:123-157 | the view reads only the base name and never changes the store. It forwards the error if and only if the note is missing, the read is refused, or Node rejects the base name as a path. Otherwise it sends the note page with the raw id, the sanitized id and the sanitized text |
| Topic.FilteredHandlersConfined | routes/topic.js:113-114 | the update form, delete and view name only base-name keys, so never a key containing `/` (the same filter is at :63 and :127) |
| Topic.RawHandlersUnfiltered | routes/topic.js:98-100 | whenever Node accepts the paths, create and update name the raw title (and update the raw id) in every environment, with no filter, so a title with a `..` segment such as `../password.txt` names a file outside the data directory (also :47) |
| Topic.ViewFiltersWhatCreateDoesNot | routes/topic.js:127-128 | with the POSIX base name, viewing `../password.txt` reads `password.txt`. Creating a note with that title writes `../password.txt` itself (:47) |
| Topic.DeleteIdempotent | routes/topic.js:113-115 | deleting twice gives the same store, outcome and calls as deleting once, whether the first unlink succeeded, was refused or was rejected |
| Topic.CreateOverwrites | routes/topic.js:47 | two successful creates with the same title keep only the second text |
| Topic.UnchangedEditIsNoop | routes/topic.js:91-102 | when the update form can read the note, it shows the stored text, and updating the note under its own name (the name the update form shows as id and title) with its stored text leaves the store as it was and redirects to the note, when neither the rename nor the write is refused (a refused write is Fatal) |
| Index.Home | routes/index.js:7-21 | the home page is the template with title `Welcome`, the list of the listing, the greeting body, and the page text's home control |
| Index.HomePage | routes/index.js:7-21 | the home page as the application serves it: title `Welcome`, the list of the listing, the greeting body, and exactly `<a href="/topic/create">CREATE</a>` as control |
| Index.HomeListsNote | routes/index.js:11-12 | the home page shows every listed note as a link, in listing order, inside the list slot |
| Index.HomeGreeting | routes/index.js:13-16 | the home body holds the `Welcome` heading with `Hello, node.js` right after it |
| Workflows.CreateThenView | routes/topic.js:47-50 | after a successful create, viewing the title (when the base-name filter keeps it) shows the sanitized title and text, unless the read is refused or Node rejects the title, in which case the view forwards the error |
| Workflows.CreateThenListed | routes/topic.js:47 | after a successful create of a title without `/` that Node accepts, every listing of the store names the new note |
| Workflows.UpdateThenView | routes/topic.js:98-102 | after a successful update, for a title the base-name filter keeps as it is, the new title shows the new text (unless its read is refused); the old id, if different and also kept as it is by the filter, is no longer found. A title or old id with a directory part is viewed under its base name, so neither promise holds for it |
| Workflows.DeleteThenView | routes/topic.js:113-114 | after a delete whose unlink is not refused, viewing the same id forwards the error; after a refused unlink the view is as before |
| Workflows.FailedWriteIsInvisible | routes/topic.js:47-48 | a create whose write is refused, and an update whose rename fails (a missing note or a refused rename), change nothing any later view can see |

## Left out

- main.js, main_1.js, main_2.js and main_3.js are not modelled. This covers server setup, the static and security middleware, the 404/400 fallbacks with their shared mutable error text, and the superseded `/page/` snapshots that duplicate the handler logic.
- The listing middleware is not modelled: its `readdir`, its order, and its failures. A handler receives the listing as a parameter; `Workflows.IsListingOf` relates a listing to a store.
- The internals of `path.parse`, `sanitize-html` and `encodeURI` are not modelled. They are opaque functions of an `Env`, because they are library code. The only fact assumed is that a base name contains no `/`. Windows path semantics are not covered.
- Filesystem errors other than a missing file are not modelled by cause: every call may be refused through an oracle, `Env.refuses`. Node's path validation is modelled only by its NUL check (`NoteStore.Rejected`). The oracle's answer depends only on the call, not on the store or on earlier calls.
- Concurrency and callback ordering between requests are not modelled: each handler runs to completion on the store it is given.
- Express routing precedence (for example `/create` before `/:pageId`), URL decoding of parameters, and body parsing are not modelled. Missing form fields are not modelled; every field is a string.
- Pages are returned as `PageView` values, not HTML strings. `Pages.Render` gives the HTML, and the lemmas relate the two. The text of the forms and links is the `Source` record.
- A `Fatal` outcome is not followed further. The throws at routes/topic.js:48, :99 and :101 happen in asynchronous callbacks, so they end the whole server process, and requests in flight are lost. The store a `Fatal` response carries, and what `Workflows.FailedWriteIsInvisible` says a view sees, describe the directory after a restart.
- NoteStore.WriteFile: a refused write leaves the store unchanged. The real `fs.writeFile` truncates the file before writing, so an error during the write (no space left, an I/O error) can leave an empty or partial file. That case is not modelled.
- Path normalisation and aliasing are not modelled. Keys are compared as strings, so two names of one file (`a` and `./a`, or `a` and `sub/../a`) are two different notes in the model. Creating `./a` would really overwrite `a`, and renaming `a` to `./a` would really leave `a` in place. A name with `/` but no `..` segment names a file in a subdirectory of the data directory. The base names `..`, `.` and the empty name are keys like any other in the model, though they name the application directory or the data directory itself. A read or unlink of them fails, so no file leaks, but `Topic.FilteredHandlersConfined` states only that no key holds `/`.
- The browser round trip of the update form is not modelled. A submitted form does not always send back the values it shows: unquoted attribute values are cut at a space, and textarea text is entity-decoded, loses a leading newline and gets CRLF line breaks. `Topic.UnchangedEditIsNoop` feeds the shown values to the handler directly.

=== FILE: http.dfy ===
/** What a handler hands back to Express, and the store it leaves behind. */
module Http {
  import opened NoteStore
  import opened Pages

  /** `res.send(html)` of the HTML of a page, `res.redirect(302, location)`,
      an error that goes on to the error middleware (`next(err)`, or an
      exception thrown synchronously in the handler, which Express catches),
      or an exception
      thrown inside an asynchronous filesystem callback. Express does not
      catch such an exception and no `uncaughtException` handler is
      installed, so it ends the whole server process. The store a `Fatal`
      response carries is the directory as the process leaves it. */
  datatype Outcome =
    | SendPage(page: PageView)
    | Redirect302(location: string)
    | ForwardError
    | Fatal

  /** The store after the request, the outcome, and the filesystem calls the
      handler made, in order. */
  datatype Response = Response(store: Store, outcome: Outcome, ops: seq<FsOp>)

}

=== FILE: index.dfy ===
/** The home page of routes/index.js: a pure render of the directory listing
    the middleware attached to the request. */
module Index {
  import opened Skeletons
  import opened Template
  import opened Pages

  /** GET /: the greeting page. `tx` is the page text (`Source` in the
      application). */
  function Home(tx: Texts, listing: seq<string>): (r: string)
    ensures Renders(r, Parts(HomeTitle, List(listing), HomeBody(tx, HomeTitle, HomeDescription), tx.homeControl))
  {
    RenderShowsParts(tx, HomeView(listing));
    Render(tx, HomeView(listing))
  }

  /** GET / as the application serves it: the home page with the text of
      routes/index.js, whose control is the one CREATE link. */
  function HomePage(listing: seq<string>): (r: string)
    ensures Renders(r, Parts("Welcome", List(listing), HomeBody(Source, HomeTitle, HomeDescription),
                             "<a href=\"/topic/create\">CREATE</a>"))
  {
    Home(Source, listing)
  }

  /** The home page lists every note of the listing as a link, at its place
      in the list slot (so in listing order, by `ListOrder`). */
  lemma HomeListsNote(tx: Texts, listing: seq<string>, i: nat)
    requires i < |listing|
    ensures Page.ListAt(|HomeTitle|) + ItemOffset(listing, i) <= Page.ListAt(|HomeTitle|) + ItemOffset(listing, i + 1)
         <= |Home(tx, listing)|
    ensures Home(tx, listing)[Page.ListAt(|HomeTitle|) + ItemOffset(listing, i)..Page.ListAt(|HomeTitle|) + ItemOffset(listing, i + 1)]
         == Item(listing[i])
  {
    PageListsNote(tx, HomeView(listing), i);
  }

  /** The home body opens with the greeting heading, the text right after
      it. */
  lemma HomeGreeting(tx: Texts)
    ensures var b := HomeBody(tx, HomeTitle, HomeDescription);
            var t := |tx.homeHead|;
            var d := t + |HomeTitle| + |tx.homeHeadingEnd|;
            && d + |HomeDescription| <= |b|
            && b[t..t + |HomeTitle|] == "Welcome"
            && b[t + |HomeTitle|..d] == tx.homeHeadingEnd
            && b[d..d + |HomeDescription|] == "Hello, node.js"
  {
    var b := HomeBody(tx, HomeTitle, HomeDescription);
    var rest := tx.homeHeadingEnd + (HomeDescription + tx.homeTail);
    assert b == tx.homeHead + (HomeTitle + rest);
    assert b[|tx.homeHead|..] == HomeTitle + rest;
    assert b[|tx.homeHead| + |HomeTitle|..] == rest;
    assert rest[|tx.homeHeadingEnd|..] == HomeDescription + tx.homeTail;
  }
}

=== FILE: pages.dfy ===
/** The pages the handlers send: which page, with which values, and the HTML
    it renders to through lib/template.js `html`.

    The fixed text of the pages (forms, links, the delete prompt) is gathered
    in one record, `Source`. Every fact below is proved for an arbitrary
    record, so it holds of `Source` in particular, and the proofs never need to
    look inside the long literals. */
module Pages {
  import opened Skeletons
  import opened Template

  /** The fixed text around the values each page embeds. */
  datatype Texts = Texts(
    createBody: string,
    updateHead: string, updateMid: string, updateText: string, updateTail: string,
    updateLinks: string, updateLinksEnd: string,
    noteHeading: string,
    noteLinks: string, notePrompt: string, noteHidden: string, noteTail: string,
    homeHead: string, homeHeadingEnd: string, homeTail: string, homeControl: string)

  /** The text of routes/topic.js and routes/index.js, whitespace included. */
  const Source: Texts := Texts(
    // the create form
    "\n\t\t<form action=\"/topic/create_process\" method=\"post\">\n\t\t\t<p>\n\t\t\t\t<input type=\"text\" name=\"title\" placeholder=\"title\">\n\t\t\t</p>\n\t\t\t<p>\n\t\t\t\t<textarea name=\"description\" placeholder=\"description\"></textarea>\n\t\t\t</p>\n\t\t\t<p>\n\t\t\t\t<input type=\"submit\">\n\t\t\t</p>\n\t\t</form>\n\t",
    // the update form, around the title (twice) and the text
    "\n\t\t\t<form action=\"/topic/update_process\" method=\"post\">\n\t\t\t\t<p>\n\t\t\t\t\t<input type=\"hidden\" name=\"id\" value=",
    ">\t\t\t\t\t\t\t\t\t\t\t\t\t\t\t<!-- 수정 전 원래 title = id -->\n\t\t\t\t\t<input type=\"text\" name=\"title\" placeholder=\"title\" value=",
    ">\t\t\t\t\t<!-- 수정 후 title = title -->\n\t\t\t\t</p>\n\t\t\t\t<p>\n\t\t\t\t\t<textarea name=\"description\" placeholder=\"description\">",
    "</textarea>\n\t\t\t\t</p>\n\t\t\t\t<p>\n\t\t\t\t\t<input type=\"submit\">\n\t\t\t\t</p>\n\t\t\t</form>\n\t\t\t",
    // the update form's links, around the title
    "<a href=\"/topic/create\">CREATE</a> <a href=\"/topic/update/",
    "\">UPDATE</a>",
    // a note page's body, between heading and text
    "</h2>\n\t\t\t\t",
    // a note page's links and delete form, around the sanitized title (three times)
    "\n\t\t\t\t<a href=\"/topic/create\">CREATE</a> \n\t\t\t\t<a href=\"/topic/update/",
    "\">UPDATE</a> \n\t\t\t\t<form action=\"/topic/delete_process\" method=\"post\" onsubmit=\"alert('",
    "항목을 삭제하시겠습니까?');\">\n\t\t\t\t\t<input type=\"hidden\" name=\"id\" value=\"",
    "\">\n\t\t\t\t\t<input type=\"submit\" value=\"delete\">\n\t\t\t\t</form>\n\t\t\t\t",
    // the home body, around the greeting, and the home control
    "\n\t\t<h2>",
    "</h2>",
    "\n\t\t<img src='/images/hello.jpg' style='width: 600px; display:block; margin:10px 0;'>\n\t\t",
    "<a href=\"/topic/create\">CREATE</a>")

  /** The title the create form passes to `html` (the page then reads
      `WEB - WEB - create`). */
  const CreateTitle: string := "WEB - create"

  /** What a template literal shows for a missing value. */
  const Undefined: string := "undefined"

  /** The greeting of routes/index.js. */
  const HomeTitle: string := "Welcome"
  const HomeDescription: string := "Hello, node.js"

  /** The update form for note `title` with text `description`: the title is
      both the hidden `id` field and the editable `title` field, unquoted, and
      the text fills the textarea. Nothing is escaped. */
  function UpdateBody(tx: Texts, title: string, description: string): (r: string)
  {
    tx.updateHead + (title + (tx.updateMid + (title + (tx.updateText + (description + tx.updateTail)))))
  }

  /** The links above the update form. */
  function UpdateControl(tx: Texts, title: string): (r: string)
  {
    tx.updateLinks + (title + tx.updateLinksEnd)
  }

  /** The body of a note page: the sanitized title as a heading, then the
      sanitized text. */
  function NoteBody(tx: Texts, title: string, description: string): (r: string)
  {
    "<h2>" + (title + (tx.noteHeading + description))
  }

  /** The links and the delete form of a note page, all built from the
      sanitized title. */
  function NoteControl(tx: Texts, title: string): (r: string)
  {
    tx.noteLinks + (title + (tx.notePrompt + (title + (tx.noteHidden + (title + tx.noteTail)))))
  }

  /** The home body: the greeting as a heading, the text right after it, then
      the picture. */
  function HomeBody(tx: Texts, title: string, description: string): (r: string)
  {
    tx.homeHead + (title + (tx.homeHeadingEnd + (description + tx.homeTail)))
  }

  /** A page a handler sends, by the values it is built from. `listing` is the
      directory listing the page's list shows. */
  datatype PageView =
    | CreateView(listing: seq<string>)
    | UpdateView(listing: seq<string>, id: string, description: string)
    | NoteView(listing: seq<string>, pageId: string, title: string, description: string)
    | HomeView(listing: seq<string>)

  /** The four arguments each page passes to `html`. */
  function PartsOf(tx: Texts, v: PageView): (p: Parts)
  {
    match v
    case CreateView(listing) => Parts(CreateTitle, List(listing), tx.createBody, "")
    case UpdateView(listing, id, d) => Parts(id, List(listing), UpdateBody(tx, id, d), UpdateControl(tx, id))
    case NoteView(listing, pageId, t, d) => Parts(pageId, List(listing), NoteBody(tx, t, d), NoteControl(tx, t))
    case HomeView(listing) => Parts(HomeTitle, List(listing), HomeBody(tx, HomeTitle, HomeDescription), tx.homeControl)
  }

  /** The HTML of a page. */
  function Render(tx: Texts, v: PageView): (r: string)
  {
    var p := PartsOf(tx, v);
    Html(p.title, p.list, p.body, p.control)
  }

  /** Every page is the template filled with its four parts, each in its slot. */
  lemma RenderShowsParts(tx: Texts, v: PageView)
    ensures Renders(Render(tx, v), PartsOf(tx, v))
  {
    var p := PartsOf(tx, v);
    HtmlRenders(p.title, p.list, p.body, p.control);
  }

  /** Every page's list slot is the list of its listing. */
  lemma PartsList(tx: Texts, v: PageView)
    ensures PartsOf(tx, v).list == List(v.listing)
  {
    match v
    case CreateView(_) =>
    case UpdateView(_, _, _) =>
    case NoteView(_, _, _, _) =>
    case HomeView(_) =>
  }

  /** Every page lists every note of its listing, each as a link, in order:
      the entry of the `i`-th note sits at its offset inside the list slot. */
  lemma PageListsNote(tx: Texts, v: PageView, i: nat)
    requires i < |v.listing|
    ensures Page.ListAt(|PartsOf(tx, v).title|) + ItemOffset(v.listing, i)
         <= Page.ListAt(|PartsOf(tx, v).title|) + ItemOffset(v.listing, i + 1)
         <= |Render(tx, v)|
    ensures Render(tx, v)[Page.ListAt(|PartsOf(tx, v).title|) + ItemOffset(v.listing, i)
                          ..Page.ListAt(|PartsOf(tx, v).title|) + ItemOffset(v.listing, i + 1)]
         == Item(v.listing[i])
  {
    RenderShowsParts(tx, v);
    PartsList(tx, v);
    PageShowsItem(Render(tx, v), PartsOf(tx, v), v.listing, i);
  }

  /** A note page's `<title>` holds the page id exactly as requested, not
      sanitized, while its body and controls use the sanitized title. */
  lemma NotePageRawTitle(tx: Texts, v: PageView)
    requires v.NoteView?
    ensures |Page.open| + |v.pageId| <= |Render(tx, v)|
    ensures Render(tx, v)[|Page.open|..|Page.open| + |v.pageId|] == v.pageId
    ensures Slots(Page, Render(tx, v), |v.pageId|, |List(v.listing)|,
                  |NoteBody(tx, v.title, v.description)|, |NoteControl(tx, v.title)|).body
         == NoteBody(tx, v.title, v.description)
  {
    RenderShowsParts(tx, v);
    RendersTitle(Render(tx, v), PartsOf(tx, v));
  }
}

=== FILE: platform.dfy ===
/** The library calls the handlers rely on, kept opaque: Node's
    `path.parse(x).base`, the `sanitize-html` package (default options, and
    with only `<h1>` allowed), `encodeURI`, and the filesystem's decision to
    fail a call for a reason other than a missing file (a permission, a
    full disk, a missing parent directory). A handler
    receives them as an `Env`; the only fact assumed about them is that a base
    name never contains `/`. A reference `PosixBase` shows that assumption is
    met by the POSIX definition. */
module Platform {
  import opened NoteStore

  datatype Env = Env(
    base: string -> string,
    sanitize: string -> string,
    sanitizeH1: string -> string,
    encodeUri: string -> string,
    refuses: FsOp -> bool)

  /** The one assumption about the base-name function. */
  ghost predicate ValidEnv(env: Env)
  {
    forall x :: '/' !in env.base(x)
  }

  /** `s` without its trailing slashes. */
  function TrimSlashes(s: string): (r: string)
    ensures |r| <= |s| && r == s[..|r|]
    ensures r == [] || r[|r| - 1] != '/'
    ensures forall i :: |r| <= i < |s| ==> s[i] == '/'
  {
    if s != [] && s[|s| - 1] == '/' then TrimSlashes(s[..|s| - 1]) else s
  }

  /** The text after the last slash of `s` (all of `s` when it has none). */
  function LastSegment(s: string): (r: string)
    ensures |r| <= |s| && r == s[|s| - |r|..]
    ensures '/' !in r
    ensures |r| < |s| ==> s[|s| - |r| - 1] == '/'
  {
    if s == [] then []
    else if s[|s| - 1] == '/' then []
    else LastSegment(s[..|s| - 1]) + [s[|s| - 1]]
  }

  /** `path.posix.parse(s).base`: trailing slashes are ignored and the last
      segment is kept. */
  function PosixBase(s: string): (r: string)
    ensures '/' !in r
    ensures '/' !in s ==> r == s
  {
    LastSegment(TrimSlashes(s))
  }

  /** Everything up to the last slash is dropped. */
  lemma {:induction false} LastSegmentAfterSlash(a: string, b: string)
    requires '/' !in b
    ensures LastSegment(a + ['/'] + b) == b
  {
    var s := a + ['/'] + b;
    if b != [] {
      var b' := b[..|b| - 1];
      assert s[..|s| - 1] == a + ['/'] + b';
      LastSegmentAfterSlash(a, b');
      assert b == b' + [b[|b| - 1]];
    }
  }

  /** The base name of a path is its last segment: the example in the view
      handler's comment, `../password.txt`, has base name `password.txt`. */
  lemma PosixBaseOfPath(dir: string, name: string)
    requires '/' !in name && name != []
    ensures PosixBase(dir + ['/'] + name) == name
    ensures PosixBase("../password.txt") == "password.txt"
  {
    LastSegmentAfterSlash(dir, name);
    LastSegmentAfterSlash("..", "password.txt");
    assert ".." + ['/'] + "password.txt" == "../password.txt";
  }

  /** An environment whose base-name function is the POSIX one satisfies the
      assumption. */
  lemma PosixEnvValid(env: Env)
    requires env.base == PosixBase
    ensures ValidEnv(env)
  {
    forall x
      ensures '/' !in env.base(x)
    {
      assert env.base(x) == PosixBase(x);
    }
  }
}

=== FILE: skeleton.dfy ===
/** A page skeleton: fixed text around four slots (title, list, control,
    body), how to fill it, and how to read the slots back out of a page. */
module Skeletons {

  /** The fixed text of the page around the four slots: `open` runs up to the
      title, `head` from the title to the banner, `sep` separates banner, list,
      control and body, and `close` ends the document. */
  datatype Skeleton = Skeleton(open: string, head: string, banner: string, sep: string, close: string)
  {
    /** Characters of the skeleton itself. */
    function Overhead(): (n: nat) { |open| + |head| + |banner| + 3 * |sep| + |close| }

    /** Offsets of the slots in a page whose title has `tn` characters, list
        `ln` and control `cn`. */
    function BannerAt(tn: nat): (n: nat) { |open| + tn + |head| }
    function ListAt(tn: nat): (n: nat) { BannerAt(tn) + |banner| + |sep| }
    function ControlAt(tn: nat, ln: nat): (n: nat) { ListAt(tn) + ln + |sep| }
    function BodyAt(tn: nat, ln: nat, cn: nat): (n: nat) { ControlAt(tn, ln) + cn + |sep| }
  }

  /** The four values a page is built from. */
  datatype Parts = Parts(title: string, list: string, body: string, control: string)

  /** `page` has the skeleton `sk` around slots of the given lengths: the
      `<title>` prefix, then the banner, then list, control and body, each
      preceded by the separator. */
  predicate Framed(sk: Skeleton, page: string, tn: nat, ln: nat, bn: nat, cn: nat)
  {
    && |page| == sk.Overhead() + tn + ln + bn + cn
    && page[..|sk.open|] == sk.open
    && page[|sk.open| + tn..sk.BannerAt(tn)] == sk.head
    && page[sk.BannerAt(tn)..sk.BannerAt(tn) + |sk.banner|] == sk.banner
    && page[sk.BannerAt(tn) + |sk.banner|..sk.ListAt(tn)] == sk.sep
    && page[sk.ListAt(tn) + ln..sk.ControlAt(tn, ln)] == sk.sep
    && page[sk.ControlAt(tn, ln) + cn..sk.BodyAt(tn, ln, cn)] == sk.sep
    && page[sk.BodyAt(tn, ln, cn) + bn..] == sk.close
  }

  /** Reads the four slots back out of a page of known slot lengths. */
  function Slots(sk: Skeleton, page: string, tn: nat, ln: nat, bn: nat, cn: nat): (p: Parts)
    requires |page| == sk.Overhead() + tn + ln + bn + cn
  {
    Parts(page[|sk.open|..|sk.open| + tn],
          page[sk.ListAt(tn)..sk.ListAt(tn) + ln],
          page[sk.BodyAt(tn, ln, cn)..sk.BodyAt(tn, ln, cn) + bn],
          page[sk.ControlAt(tn, ln)..sk.ControlAt(tn, ln) + cn])
  }

  // Slicing facts about concatenations, used to locate the slots.

  /** Splits a suffix of `r` that is known to be `x` followed by `rest`. */
  lemma Peel(r: string, i: nat, x: string, rest: string)
    requires i <= |r| && r[i..] == x + rest
    ensures i + |x| <= |r|
    ensures r[i..i + |x|] == x
    ensures r[i + |x|..] == rest
  {
    assert r[i..i + |x|] == r[i..][..|x|];
    assert r[i + |x|..] == r[i..][|x|..];
  }

  /** Where the title, head and banner sit in front of the rest of a page. */
  lemma FrontLayout(open: string, title: string, head: string, banner: string, sep: string, rest: string)
    ensures var r := open + (title + (head + (banner + (sep + rest))));
            var l := |open| + |title| + |head| + |banner| + |sep|;
            && |r| == l + |rest|
            && r[..|open|] == open
            && r[|open|..|open| + |title|] == title
            && r[|open| + |title|..|open| + |title| + |head|] == head
            && r[|open| + |title| + |head|..|open| + |title| + |head| + |banner|] == banner
            && r[|open| + |title| + |head| + |banner|..l] == sep
            && r[l..] == rest
  {
  }

  /** The front of a page, stated at the skeleton's own offsets. */
  lemma FrontAt(sk: Skeleton, r: string, title: string, rest: string)
    requires r == sk.open + (title + (sk.head + (sk.banner + (sk.sep + rest))))
    ensures |r| == sk.ListAt(|title|) + |rest|
    ensures r[..|sk.open|] == sk.open
    ensures r[|sk.open|..|sk.open| + |title|] == title
    ensures r[|sk.open| + |title|..sk.BannerAt(|title|)] == sk.head
    ensures r[sk.BannerAt(|title|)..sk.BannerAt(|title|) + |sk.banner|] == sk.banner
    ensures r[sk.BannerAt(|title|) + |sk.banner|..sk.ListAt(|title|)] == sk.sep
    ensures r[sk.ListAt(|title|)..] == rest
  {
    FrontLayout(sk.open, title, sk.head, sk.banner, sk.sep, rest);
  }

  /** The list slot and the separator after it, from the list offset on. */
  lemma ListSlot(sk: Skeleton, r: string, tn: nat, list: string, rest: string)
    requires sk.ListAt(tn) <= |r|
    requires r[sk.ListAt(tn)..] == list + (sk.sep + rest)
    ensures r[sk.ListAt(tn)..sk.ListAt(tn) + |list|] == list
    ensures r[sk.ListAt(tn) + |list|..sk.ControlAt(tn, |list|)] == sk.sep
    ensures r[sk.ControlAt(tn, |list|)..] == rest
  {
    Peel(r, sk.ListAt(tn), list, sk.sep + rest);
    Peel(r, sk.ListAt(tn) + |list|, sk.sep, rest);
  }

  /** The control slot and the separator after it, from the control offset on. */
  lemma ControlSlot(sk: Skeleton, r: string, tn: nat, ln: nat, control: string, rest: string)
    requires sk.ControlAt(tn, ln) <= |r|
    requires r[sk.ControlAt(tn, ln)..] == control + (sk.sep + rest)
    ensures r[sk.ControlAt(tn, ln)..sk.ControlAt(tn, ln) + |control|] == control
    ensures r[sk.ControlAt(tn, ln) + |control|..sk.BodyAt(tn, ln, |control|)] == sk.sep
    ensures r[sk.BodyAt(tn, ln, |control|)..] == rest
  {
    Peel(r, sk.ControlAt(tn, ln), control, sk.sep + rest);
    Peel(r, sk.ControlAt(tn, ln) + |control|, sk.sep, rest);
  }

  /** The body slot and the closing text, from the body offset on. */
  lemma BodySlot(sk: Skeleton, r: string, b: nat, body: string)
    requires b <= |r|
    requires r[b..] == body + sk.close
    ensures |r| == b + |body| + |sk.close|
    ensures r[b..b + |body|] == body
    ensures r[b + |body|..] == sk.close
  {
    Peel(r, b, body, sk.close);
  }

  /** Fills the skeleton: the title, then the banner, then list, control and
      body, in that order. */
  function Fill(sk: Skeleton, title: string, list: string, body: string, control: string): (r: string)
  {
    sk.open + (title + (sk.head + (sk.banner + (sk.sep + (list + (sk.sep + (control + (sk.sep + (body + sk.close)))))))))
  }

  /** A page whose front is in place and whose suffix from the list offset is
      the list, control and body between separators is framed, with those
      slots. */
  lemma FramedFromFront(sk: Skeleton, r: string, title: string, list: string, body: string, control: string)
    requires |r| == sk.ListAt(|title|) + |list + (sk.sep + (control + (sk.sep + (body + sk.close))))|
    requires r[..|sk.open|] == sk.open
    requires r[|sk.open|..|sk.open| + |title|] == title
    requires r[|sk.open| + |title|..sk.BannerAt(|title|)] == sk.head
    requires r[sk.BannerAt(|title|)..sk.BannerAt(|title|) + |sk.banner|] == sk.banner
    requires r[sk.BannerAt(|title|) + |sk.banner|..sk.ListAt(|title|)] == sk.sep
    requires r[sk.ListAt(|title|)..] == list + (sk.sep + (control + (sk.sep + (body + sk.close))))
    ensures Framed(sk, r, |title|, |list|, |body|, |control|)
    ensures Slots(sk, r, |title|, |list|, |body|, |control|) == Parts(title, list, body, control)
  {
    ListSlot(sk, r, |title|, list, control + (sk.sep + (body + sk.close)));
    ControlSlot(sk, r, |title|, |list|, control, body + sk.close);
    BodySlot(sk, r, sk.BodyAt(|title|, |list|, |control|), body);
  }

  /** A filled page is framed by its skeleton, and its slots read back the
      four values it was filled with. */
  lemma FillLayout(sk: Skeleton, title: string, list: string, body: string, control: string)
    ensures Framed(sk, Fill(sk, title, list, body, control), |title|, |list|, |body|, |control|)
    ensures Slots(sk, Fill(sk, title, list, body, control), |title|, |list|, |body|, |control|) == Parts(title, list, body, control)
  {
    var t := list + (sk.sep + (control + (sk.sep + (body + sk.close))));
    FrontAt(sk, Fill(sk, title, list, body, control), title, t);
    FramedFromFront(sk, Fill(sk, title, list, body, control), title, list, body, control);
  }

  /** A suffix of `r` made of a known slice followed by a known suffix. */
  lemma Cons(r: string, i: nat, j: nat, x: string, rest: string)
    requires i <= j <= |r| && r[i..j] == x && r[j..] == rest
    ensures r[i..] == x + rest
  {
    assert r[i..] == r[i..j] + r[j..];
  }

  /** A suffix of `r` made of a slot of length `xn`, a separator ending at
      `j`, and a known suffix. */
  lemma Cons2(r: string, i: nat, xn: nat, j: nat, x: string, sep: string, rest: string)
    requires |x| == xn && i + xn + |sep| == j <= |r|
    requires r[i..i + xn] == x && r[i + xn..j] == sep && r[j..] == rest
    ensures r[i..] == x + (sep + rest)
  {
    Cons(r, i + xn, j, sep, rest);
    Cons(r, i, i + xn, x, sep + rest);
  }

  /** The back of a framed page, from the list offset on, is its list,
      control and body slots between separators. */
  lemma BackRebuild(sk: Skeleton, page: string, tn: nat, ln: nat, bn: nat, cn: nat)
    requires Framed(sk, page, tn, ln, bn, cn)
    ensures var p := Slots(sk, page, tn, ln, bn, cn);
            page[sk.ListAt(tn)..] == p.list + (sk.sep + (p.control + (sk.sep + (p.body + sk.close))))
  {
    var p := Slots(sk, page, tn, ln, bn, cn);
    ControlRebuild(sk, page, tn, ln, bn, cn);
    Cons2(page, sk.ListAt(tn), ln, sk.ControlAt(tn, ln), p.list, sk.sep, p.control + (sk.sep + (p.body + sk.close)));
  }

  /** The back of a framed page from the control offset on. */
  lemma ControlRebuild(sk: Skeleton, page: string, tn: nat, ln: nat, bn: nat, cn: nat)
    requires Framed(sk, page, tn, ln, bn, cn)
    ensures var p := Slots(sk, page, tn, ln, bn, cn);
            page[sk.ControlAt(tn, ln)..] == p.control + (sk.sep + (p.body + sk.close))
  {
    var p := Slots(sk, page, tn, ln, bn, cn);
    Cons(page, sk.BodyAt(tn, ln, cn), sk.BodyAt(tn, ln, cn) + bn, p.body, sk.close);
    Cons2(page, sk.ControlAt(tn, ln), cn, sk.BodyAt(tn, ln, cn), p.control, sk.sep, p.body + sk.close);
  }

  /** A string whose front is known piece by piece up to a known suffix is
      those pieces followed by the suffix; `bt` is where the banner starts and
      `l` where the suffix starts. */
  lemma FrontRebuild(r: string, open: string, tn: nat, bt: nat, l: nat,
                                        title: string, head: string, banner: string, sep: string, rest: string)
    requires |title| == tn && |open| + tn + |head| == bt && bt + |banner| + |sep| == l <= |r|
    requires r[..|open|] == open
    requires r[|open|..|open| + tn] == title
    requires r[|open| + tn..bt] == head
    requires r[bt..bt + |banner|] == banner
    requires r[bt + |banner|..l] == sep
    requires r[l..] == rest
    ensures r == open + (title + (head + (banner + (sep + rest))))
  {
    Cons2(r, bt, |banner|, l, banner, sep, rest);
    Cons2(r, |open| + tn, |head|, bt + |banner|, head, banner, sep + rest);
    Cons(r, |open|, |open| + tn, title, head + (banner + (sep + rest)));
    assert r == r[..|open|] + r[|open|..];
  }

  /** The other half of the round trip: a framed page is exactly the page its
      own slots fill the skeleton into. */
  lemma SlotsRebuild(sk: Skeleton, page: string, tn: nat, ln: nat, bn: nat, cn: nat)
    requires Framed(sk, page, tn, ln, bn, cn)
    ensures var p := Slots(sk, page, tn, ln, bn, cn);
            Fill(sk, p.title, p.list, p.body, p.control) == page
  {
    var p := Slots(sk, page, tn, ln, bn, cn);
    BackRebuild(sk, page, tn, ln, bn, cn);
    FrontRebuild(page, sk.open, tn, sk.BannerAt(tn), sk.ListAt(tn), p.title, sk.head, sk.banner, sk.sep,
                 p.list + (sk.sep + (p.control + (sk.sep + (p.body + sk.close)))));
  }

}

=== FILE: store.dfy ===
/** The note store: the `./data` directory seen as a map from file name to
    file contents, and the four filesystem calls the handlers make on it. */
module NoteStore {

  datatype Option<T> = None | Some(value: T)

  /** File name (relative to `./data`) to file contents. The handlers build
      the path by plain concatenation, so a name may contain `/` (a file in a
      subdirectory) or a `..` segment (a file outside the directory). Keys
      are compared as strings: two names for the same file, such as `a` and
      `./a`, are two different keys here. */
  type Store = map<string, string>

  /** One filesystem call, by the key(s) it names. */
  datatype FsOp =
    | ReadOp(key: string)
    | WriteOp(key: string)
    | RenameOp(from: string, to: string)
    | UnlinkOp(key: string)

  /** The keys a call names. */
  function OpKeys(op: FsOp): (r: set<string>)
    ensures op.RenameOp? ==> r == {op.from, op.to}
    ensures !op.RenameOp? ==> |r| == 1
  {
    match op
    case ReadOp(k) => {k}
    case WriteOp(k) => {k}
    case RenameOp(f, t) => {f, t}
    case UnlinkOp(k) => {k}
  }

  /** The keys named by a sequence of calls. */
  function Keys(ops: seq<FsOp>): (r: set<string>)
    ensures forall i :: 0 <= i < |ops| ==> OpKeys(ops[i]) <= r
    ensures forall k :: k in r ==> exists i :: 0 <= i < |ops| && k in OpKeys(ops[i])
  {
    if ops == [] then {} else OpKeys(ops[0]) + Keys(ops[1..])
  }

  /** The keys of one call and of two calls. */
  lemma KeysOfOne(op: FsOp)
    ensures Keys([op]) == OpKeys(op)
  {
    assert [op][1..] == [];
  }

  lemma KeysOfTwo(a: FsOp, b: FsOp)
    ensures Keys([a, b]) == OpKeys(a) + OpKeys(b)
  {
    assert [a, b][1..] == [b];
    KeysOfOne(b);
  }

  /** `s'` agrees with `s` on every key outside `keys`: same presence, same
      contents. */
  ghost predicate Unchanged(s: Store, s': Store, keys: set<string>)
  {
    forall k :: k !in keys ==> (k in s <==> k in s') && (k in s ==> s[k] == s'[k])
  }

  /** Node refuses a path holding a NUL character before any I/O: the call
      throws synchronously (`ERR_INVALID_ARG_VALUE`) instead of reaching the
      filesystem. Every path is `./data/` followed by the key, so the check
      is on the key. */
  predicate Rejected(key: string)
  {
    '\0' in key
  }

  /** `fs.readFile`: the contents, or nothing when the file is absent or the
      filesystem refuses the read (`refused` stands for errors such as a
      missing permission). */
  function ReadFile(s: Store, key: string, refused: bool): (r: Option<string>)
    ensures r.Some? <==> key in s && !refused
    ensures r.Some? ==> r.value == s[key]
  {
    if key in s && !refused then Some(s[key]) else None
  }

  /** `fs.writeFile`: creates or overwrites the file, unless the filesystem
      refuses it (`refused` stands for every I/O error the store does not
      model, such as a missing parent directory). */
  function WriteFile(s: Store, key: string, data: string, refused: bool): (r: Option<Store>)
    ensures r.Some? <==> !refused
    ensures r.Some? ==> key in r.value && r.value[key] == data
    ensures r.Some? ==> r.value.Keys == s.Keys + {key}
    ensures r.Some? ==> Unchanged(s, r.value, {key})
  {
    if refused then None else Some(s[key := data])
  }

  /** `fs.rename` with POSIX semantics: fails when the source is absent or
      the filesystem refuses the rename; otherwise the contents move to the
      target, replacing any file there. Renaming a file onto itself succeeds
      and changes nothing. */
  function Rename(s: Store, from: string, to: string, refused: bool): (r: Option<Store>)
    ensures r.Some? <==> from in s && !refused
    ensures r.Some? ==> to in r.value && r.value[to] == s[from]
    ensures r.Some? && from != to ==> from !in r.value
    ensures r.Some? ==> r.value.Keys == (s.Keys - {from}) + {to}
    ensures r.Some? ==> Unchanged(s, r.value, {from, to})
  {
    if from !in s || refused then None else Some((s - {from})[to := s[from]])
  }

  /** `fs.unlink`: removes the file, or fails when it is absent or the
      filesystem refuses to remove it. */
  function Unlink(s: Store, key: string, refused: bool): (r: Option<Store>)
    ensures r.Some? <==> key in s && !refused
    ensures r.Some? ==> r.value.Keys == s.Keys - {key}
    ensures r.Some? ==> Unchanged(s, r.value, {key})
  {
    if key in s && !refused then Some(s - {key}) else None
  }

  /** Renaming a file onto itself leaves the store as it was. */
  lemma RenameSelf(s: Store, key: string)
    requires key in s
    ensures Rename(s, key, key, false) == Some(s)
  {
    assert (s - {key})[key := s[key]] == s;
  }

}

=== FILE: template.dfy ===
/** The HTML serialiser of lib/template.js: `List` turns the ordered note
    names into a `<ul>` of `/topic/<name>` links, and `Html` places a title,
    a list fragment, a control string and a body into a fixed page skeleton.
    Nothing is escaped: every argument is embedded verbatim. */
module Template {
  import opened Skeletons

  // ---------------------------------------------------------------------
  // The list fragment
  // ---------------------------------------------------------------------

  const ListOpen: string := "<ul>"
  const ListClose: string := "</ul>"

  /** The pieces of one list entry: `<li><a href="/topic/NAME">NAME</a></li>`. */
  const LinkOpen: string := "<li><a href=\"/topic/"
  const LinkMid: string := "\">"
  const LinkClose: string := "</a></li>"

  /** Characters an entry adds beyond its two copies of the name. */
  const ItemOverhead: nat := 31

  /** One entry of the list: the name is both the href suffix and the link text. */
  function Item(name: string): (r: string)
    ensures |r| == 2 * |name| + ItemOverhead
  {
    LinkOpen + name + LinkMid + name + LinkClose
  }

  /** The name appears twice in its entry, unescaped: right after `/topic/`
      in the href, and as the link text. */
  lemma ItemShowsName(name: string)
    ensures Item(name)[..|LinkOpen|] == LinkOpen
    ensures Item(name)[|LinkOpen|..|LinkOpen| + |name|] == name
    ensures Item(name)[|LinkOpen| + |name|..|LinkOpen| + |name| + |LinkMid|] == LinkMid
    ensures Item(name)[|LinkOpen| + |name| + |LinkMid|..|LinkOpen| + 2 * |name| + |LinkMid|] == name
    ensures Item(name)[|LinkOpen| + 2 * |name| + |LinkMid|..] == LinkClose
  {
    var r := Item(name);
    assert r == LinkOpen + name + LinkMid + name + LinkClose;
  }

  /** Total number of characters in the names. */
  function NamesLength(names: seq<string>): (n: nat)
  {
    if names == [] then 0 else |names[0]| + NamesLength(names[1..])
  }

  /** The entries of all names, in order, without the enclosing `<ul>`. */
  function Items(names: seq<string>): (r: string)
    ensures |r| >= ItemOverhead * |names|
  {
    if names == [] then "" else Item(names[0]) + Items(names[1..])
  }

  /** The `<ul>` fragment of lib/template.js `list`. */
  function List(names: seq<string>): (r: string)
    ensures |r| >= |ListOpen| + |ListClose| + ItemOverhead * |names|
    ensures r[..|ListOpen|] == ListOpen
    ensures r[|r| - |ListClose|..] == ListClose
  {
    ListOpen + Items(names) + ListClose
  }

  /** Every name adds its entry overhead and two copies of itself. */
  lemma {:induction false} ItemsLength(names: seq<string>)
    ensures |Items(names)| == ItemOverhead * |names| + 2 * NamesLength(names)
  {
    if names != [] {
      ItemsLength(names[1..]);
    }
  }

  /** The length of the list fragment. */
  lemma ListLength(names: seq<string>)
    ensures |List(names)| == |ListOpen| + |ListClose| + ItemOverhead * |names| + 2 * NamesLength(names)
  {
    ItemsLength(names);
  }

  /** An empty directory gives an empty list, and only an empty one does. */
  lemma ListEmpty(names: seq<string>)
    ensures names == [] <==> List(names) == "<ul></ul>"
  {
    if names == [] {
      assert Items(names) == "";
    } else {
      assert |List(names)| >= |ListOpen| + |ListClose| + ItemOverhead;
    }
  }

  /** The loop of lib/template.js `list`: after `i` rounds the accumulator is
      `<ul>` followed by the entries of the first `i` names. */
  method BuildList(names: seq<string>) returns (r: string)
    ensures r == List(names)
  {
    r := ListOpen;
    var i := 0;
    while i < |names|
      invariant 0 <= i <= |names|
      invariant r == ListOpen + Items(names[..i])
    {
      ItemsSnoc(names, i);
      r := r + Item(names[i]);
      i := i + 1;
    }
    assert names[..i] == names;
    r := r + ListClose;
  }

  /** Entries of a concatenation are the concatenation of the entries. */
  lemma {:induction false} ItemsAppend(xs: seq<string>, ys: seq<string>)
    ensures Items(xs + ys) == Items(xs) + Items(ys)
  {
    if xs == [] {
      assert xs + ys == ys;
    } else {
      assert (xs + ys)[0] == xs[0];
      assert (xs + ys)[1..] == xs[1..] + ys;
      ItemsAppend(xs[1..], ys);
    }
  }

  /** Where the entry of `names[i]` starts inside `List(names)`. */
  function ItemOffset(names: seq<string>, i: nat): (n: nat)
    requires i <= |names|
  {
    |ListOpen| + |Items(names[..i])|
  }

  /** The entries of a single name are its one entry. */
  lemma ItemsSingleton(name: string)
    ensures Items([name]) == Item(name)
  {
    assert [name][1..] == [];
    assert Items([name]) == Item(name) + Items([]);
  }

  /** Splitting the names anywhere splits their entries there. */
  lemma ItemsTakeDrop(names: seq<string>, k: nat)
    requires k <= |names|
    ensures Items(names) == Items(names[..k]) + Items(names[k..])
  {
    assert names == names[..k] + names[k..];
    ItemsAppend(names[..k], names[k..]);
  }

  /** Where the middle piece of a five-part concatenation sits. */
  lemma SliceMiddle(a: string, b: string, c: string, d: string, e: string)
    ensures |a| + |b| + |c| <= |a + (b + c + d) + e|
    ensures (a + (b + c + d) + e)[|a| + |b|..|a| + |b| + |c|] == c
  {
    var r := a + (b + c + d) + e;
    assert r == (a + b) + c + (d + e);
  }

  /** The entries of one more name end with that name's entry. */
  lemma ItemsSnoc(names: seq<string>, i: nat)
    requires i < |names|
    ensures Items(names[..i + 1]) == Items(names[..i]) + Item(names[i])
  {
    assert names[..i + 1] == names[..i] + [names[i]];
    ItemsAppend(names[..i], [names[i]]);
    ItemsSingleton(names[i]);
  }

  /** The entry of `names[i]` sits, verbatim, right after the entries of the
      names before it. */
  lemma ListItemAt(names: seq<string>, i: nat)
    requires i < |names|
    ensures ItemOffset(names, i) + |Item(names[i])| == ItemOffset(names, i + 1)
    ensures ItemOffset(names, i + 1) <= |List(names)|
    ensures List(names)[ItemOffset(names, i)..ItemOffset(names, i + 1)] == Item(names[i])
  {
    var before, entry, after := Items(names[..i]), Item(names[i]), Items(names[i + 1..]);
    ItemsTakeDrop(names, i + 1);
    ItemsSnoc(names, i);
    assert Items(names) == before + entry + after;
    assert |Items(names[..i + 1])| == |before| + |entry|;
    SliceMiddle(ListOpen, before, entry, after, ListClose);
  }

  /** Order is preserved: the entry of an earlier name ends before the entry of
      a later name begins, and both appear verbatim. */
  lemma ListOrder(names: seq<string>, i: nat, j: nat)
    requires i < j < |names|
    ensures ItemOffset(names, i) + |Item(names[i])| <= ItemOffset(names, j)
    ensures ItemOffset(names, j) + |Item(names[j])| <= |List(names)|
    ensures List(names)[ItemOffset(names, i)..ItemOffset(names, i) + |Item(names[i])|] == Item(names[i])
    ensures List(names)[ItemOffset(names, j)..ItemOffset(names, j) + |Item(names[j])|] == Item(names[j])
  {
    ListItemAt(names, i);
    ListItemAt(names, j);
    ItemsPrefixGrows(names, i + 1, j);
  }

  /** Entries of a longer prefix of the names are at least as long. */
  lemma ItemsPrefixGrows(names: seq<string>, k: nat, m: nat)
    requires k <= m <= |names|
    ensures |Items(names[..k])| <= |Items(names[..m])|
  {
    ItemsTakeDrop(names[..m], k);
    assert names[..m][..k] == names[..k];
  }

  // ---------------------------------------------------------------------
  // The page
  // ---------------------------------------------------------------------

  /** The skeleton of lib/template.js `html`, whitespace included. */
  const Page: Skeleton := Skeleton(
    "\n\t\t<!doctype html>\n\t\t<html>\n\t\t<head>\n\t\t\t<title>WEB - ",
    "</title>\n\t\t\t<meta charset=\"utf-8\">\n\t\t</head>\n\t\t<body>\n\t\t\t",
    "<h1><a href=\"/\">WEB</a></h1>",
    "\n\t\t\t",
    "\n\t\t</body>\n\t\t</html>")

  /** The skeleton adds 170 characters to every page. */
  lemma PageOverhead()
    ensures Page.Overhead() == 170
  {
  }

  /** `page` is the skeleton of lib/template.js `html` with exactly the parts
      `p` in its slots. */
  ghost predicate Renders(page: string, p: Parts)
  {
    && Framed(Page, page, |p.title|, |p.list|, |p.body|, |p.control|)
    && Slots(Page, page, |p.title|, |p.list|, |p.body|, |p.control|) == p
  }

  /** lib/template.js `html`: the title inside `<title>WEB - …</title>`, then
      list, control and body inserted verbatim after the banner (control before
      body, although it is the last argument). Nothing is escaped. */
  function Html(title: string, list: string, body: string, control: string): (r: string)
    ensures |r| == Page.Overhead() + |title| + |list| + |body| + |control|
  {
    Fill(Page, title, list, body, control)
  }

  /** The page `html` builds renders its four arguments: skeleton text around
      them, each in its slot, and a length of the skeleton's plus theirs. */
  lemma HtmlRenders(title: string, list: string, body: string, control: string)
    ensures |Html(title, list, body, control)| == Page.Overhead() + |title| + |list| + |body| + |control|
    ensures Renders(Html(title, list, body, control), Parts(title, list, body, control))
  {
    FillLayout(Page, title, list, body, control);
  }

  /** The page `html` builds is the only page that renders its parts. */
  lemma RendersExactly(page: string, p: Parts)
    ensures Renders(page, p) <==> page == Html(p.title, p.list, p.body, p.control)
  {
    if Renders(page, p) {
      SlotsRebuild(Page, page, |p.title|, |p.list|, |p.body|, |p.control|);
    } else {
      HtmlRenders(p.title, p.list, p.body, p.control);
    }
  }

  /** Where the title slot of a rendered page is. */
  lemma RendersTitle(page: string, p: Parts)
    requires Renders(page, p)
    ensures |Page.open| + |p.title| <= |page|
    ensures page[|Page.open|..|Page.open| + |p.title|] == p.title
  {
  }

  /** Slicing inside a slice. */
  lemma SliceOfSlice(r: string, l: nat, n: nat, x: string, a: nat, b: nat)
    requires l + n <= |r| && r[l..l + n] == x && a <= b <= n
    ensures r[l + a..l + b] == x[a..b]
  {
    forall k | 0 <= k < b - a
      ensures r[l + a..l + b][k] == x[a..b][k]
    {
      assert x[a + k] == r[l + a + k];
    }
  }

  /** Where the list slot of a rendered page is. */
  lemma RendersList(page: string, p: Parts)
    requires Renders(page, p)
    ensures Page.ListAt(|p.title|) + |p.list| <= |page|
    ensures page[Page.ListAt(|p.title|)..Page.ListAt(|p.title|) + |p.list|] == p.list
  {
  }

  /** A list fragment at offset `l` of a page shows the entry of every name,
      in place. */
  lemma ListShowsItem(page: string, l: nat, names: seq<string>, i: nat)
    requires l + |List(names)| <= |page| && page[l..l + |List(names)|] == List(names)
    requires i < |names|
    ensures ItemOffset(names, i) <= ItemOffset(names, i + 1) <= |List(names)|
    ensures page[l + ItemOffset(names, i)..l + ItemOffset(names, i + 1)] == Item(names[i])
  {
    ListItemAt(names, i);
    var a := ItemOffset(names, i);
    var b := ItemOffset(names, i + 1);
    var x := List(names);
    assert a <= b <= |x| && x[a..b] == Item(names[i]);
    SliceOfSlice(page, l, |x|, x, a, b);
  }

  /** A page whose list slot is the list of `names` shows the entry of every
      name. */
  lemma PageShowsItem(page: string, p: Parts, names: seq<string>, i: nat)
    requires Renders(page, p) && p.list == List(names) && i < |names|
    ensures Page.ListAt(|p.title|) + ItemOffset(names, i) <= Page.ListAt(|p.title|) + ItemOffset(names, i + 1) <= |page|
    ensures page[Page.ListAt(|p.title|) + ItemOffset(names, i)..Page.ListAt(|p.title|) + ItemOffset(names, i + 1)]
         == Item(names[i])
  {
    RendersList(page, p);
    var l := Page.ListAt(|p.title|);
    ListShowsItem(page, l, names, i);
  }

  /** The text before and after the middle piece of a three-part string. */
  lemma AroundMiddle(r: string, a: string, b: string, c: string)
    requires r == a + (b + c)
    ensures |a| + |b| <= |r|
    ensures r[..|a|] == a
    ensures r[|a| + |b|..] == c
  {
  }

  /** The title influences only the `<title>` element: two pages that differ
      only in the title agree on everything before and after it. */
  lemma TitleOnlyInTitleElement(t1: string, t2: string, list: string, body: string, control: string)
    ensures Html(t1, list, body, control)[..|Page.open|] == Html(t2, list, body, control)[..|Page.open|]
    ensures Html(t1, list, body, control)[|Page.open| + |t1|..]
         == Html(t2, list, body, control)[|Page.open| + |t2|..]
  {
    HtmlRenders(t1, list, body, control);
    HtmlRenders(t2, list, body, control);
    var sk := Page;
    var rest := sk.head + (sk.banner + (sk.sep + (list + (sk.sep + (control + (sk.sep + (body + sk.close)))))));
    AroundMiddle(Html(t1, list, body, control), sk.open, t1, rest);
    AroundMiddle(Html(t2, list, body, control), sk.open, t2, rest);
  }
}

=== FILE: topic.dfy ===
/** The `/topic` router of routes/topic.js. Every handler is a pure
    transition from the store (and the request's fields) to a `Response`: the
    new store, the outcome, and the filesystem calls made. `listing` is the
    directory listing a middleware attached to the request as `req.list`. */
module Topic {
  import opened NoteStore
  import opened Platform
  import opened Http
  import opened Pages

  // ---------------------------------------------------------------------
  // Handlers
  // ---------------------------------------------------------------------

  /** GET /topic/create: the empty form, with no control links. */
  function CreateForm(store: Store, listing: seq<string>): (r: Response)
    ensures r.store == store && r.ops == []
    ensures r.outcome == SendPage(CreateView(listing))
  {
    Response(store, SendPage(CreateView(listing)), [])
  }

  /** POST /topic/create_process: writes the text under the raw title (no
      base-name filter, so a title with a `..` path segment names a file
      outside the directory), overwriting any note of that name, then
      redirects to the URI-encoded title. A title Node rejects as a path
      throws synchronously, which Express hands to the error middleware; a
      refused write throws inside the callback. */
  function CreateProcess(env: Env, store: Store, title: string, description: string): (r: Response)
    ensures Rejected(title) ==> r == Response(store, ForwardError, [])
    ensures !Rejected(title) ==> r.ops == [WriteOp(title)]
    ensures r.outcome.Fatal? <==> !Rejected(title) && env.refuses(WriteOp(title))
    ensures !r.outcome.Redirect302? ==> r.store == store
    ensures r.outcome.Redirect302? <==> !Rejected(title) && !env.refuses(WriteOp(title))
    ensures r.outcome.Redirect302? ==> r.outcome.location == "/topic/" + env.encodeUri(title)
    ensures r.outcome.Redirect302? ==> title in r.store && r.store[title] == description
    ensures r.outcome.Redirect302? ==> r.store.Keys == store.Keys + {title}
    ensures Unchanged(store, r.store, {title})
  {
    if Rejected(title) then Response(store, ForwardError, [])
    else
      var ops := [WriteOp(title)];
      match WriteFile(store, title, description, env.refuses(WriteOp(title)))
      case None => Response(store, Fatal, ops)
      case Some(s) => Response(s, Redirect302("/topic/" + env.encodeUri(title)), ops)
  }

  /** GET /topic/update/:updateId: the form for the note named by the base
      name of the id. A failed read is not an error: the form shows the text
      `undefined`. Only a base name Node rejects as a path goes to the error
      middleware. */
  function UpdateForm(env: Env, store: Store, listing: seq<string>, updateId: string): (r: Response)
    ensures r.store == store
    ensures var id := env.base(updateId);
            Rejected(id) ==> r.outcome == ForwardError && r.ops == []
    ensures var id := env.base(updateId);
            !Rejected(id) ==> r.ops == [ReadOp(id)]
    ensures var id := env.base(updateId);
            !Rejected(id) && id in store && !env.refuses(ReadOp(id)) ==>
              r.outcome == SendPage(UpdateView(listing, id, store[id]))
    ensures var id := env.base(updateId);
            !Rejected(id) && (id !in store || env.refuses(ReadOp(id))) ==>
              r.outcome == SendPage(UpdateView(listing, id, Undefined))
  {
    var id := env.base(updateId);
    if Rejected(id) then Response(store, ForwardError, [])
    else
      var description := match ReadFile(store, id, env.refuses(ReadOp(id))) case Some(d) => d case None => Undefined;
      Response(store, SendPage(UpdateView(listing, id, description)), [ReadOp(id)])
  }

  /** POST /topic/update_process: renames the note `id` to `title` (raw, no
      base-name filter), then writes the new text under `title` and redirects
      to the unencoded title. An id or title Node rejects as a path throws
      synchronously (the error middleware answers). A failed rename throws
      with the store as it was; a refused write throws after the rename has
      happened. */
  function UpdateProcess(env: Env, store: Store, id: string, title: string, description: string): (r: Response)
    ensures Rejected(id) || Rejected(title) ==> r == Response(store, ForwardError, [])
    ensures var moves := !Rejected(id) && !Rejected(title) && id in store && !env.refuses(RenameOp(id, title));
            moves ==> r.ops == [RenameOp(id, title), WriteOp(title)]
    ensures !Rejected(id) && !Rejected(title) && (id !in store || env.refuses(RenameOp(id, title))) ==>
              r.ops == [RenameOp(id, title)] && r.outcome == Fatal && r.store == store
    ensures r.outcome.Redirect302? <==>
              !Rejected(id) && !Rejected(title) && id in store
              && !env.refuses(RenameOp(id, title)) && !env.refuses(WriteOp(title))
    ensures r.outcome.Redirect302? ==> r.outcome.location == "/topic/" + title
    ensures r.outcome.Redirect302? ==> title in r.store && r.store[title] == description
    ensures r.outcome.Redirect302? && id != title ==> id !in r.store
    ensures r.outcome.Redirect302? ==> r.store.Keys == (store.Keys - {id}) + {title}
    ensures !Rejected(id) && !Rejected(title) && id in store
            && !env.refuses(RenameOp(id, title)) && env.refuses(WriteOp(title)) ==>
              r.outcome == Fatal && r.store == (store - {id})[title := store[id]]
    ensures r.outcome.Fatal? || r.outcome.Redirect302? || r.outcome.ForwardError?
    ensures Unchanged(store, r.store, {id, title})
  {
    if Rejected(id) || Rejected(title) then Response(store, ForwardError, [])
    else
      match Rename(store, id, title, env.refuses(RenameOp(id, title)))
      case None => Response(store, Fatal, [RenameOp(id, title)])
      case Some(moved) =>
        var ops := [RenameOp(id, title), WriteOp(title)];
        match WriteFile(moved, title, description, env.refuses(WriteOp(title)))
        case None => Response(moved, Fatal, ops)
        case Some(s) => Response(s, Redirect302("/topic/" + title), ops)
  }

  /** POST /topic/delete_process: unlinks the note named by the base name of
      the id and redirects home, whether or not the unlink succeeded. A base
      name Node rejects as a path throws synchronously instead, and the error
      middleware answers. */
  function DeleteProcess(env: Env, store: Store, id: string): (r: Response)
    ensures var key := env.base(id);
            Rejected(key) ==> r == Response(store, ForwardError, [])
    ensures var key := env.base(id);
            !Rejected(key) ==> r.ops == [UnlinkOp(key)] && r.outcome == Redirect302("/")
    ensures var key := env.base(id);
            !Rejected(key) && !env.refuses(UnlinkOp(key)) ==>
              key !in r.store && r.store.Keys == store.Keys - {key}
    ensures env.refuses(UnlinkOp(env.base(id))) ==> r.store == store
    ensures Unchanged(store, r.store, {env.base(id)})
  {
    var key := env.base(id);
    if Rejected(key) then Response(store, ForwardError, [])
    else
      var s := match Unlink(store, key, env.refuses(UnlinkOp(key))) case Some(s) => s case None => store;
      Response(s, Redirect302("/"), [UnlinkOp(key)])
  }

  /** GET /topic/:pageId: reads the note named by the base name of the id. A
      failed read (a missing note, a refused read, or a name Node rejects as a
      path) goes to the error middleware. Otherwise the page shows the RAW id
      as the `<title>`, and the sanitized id and sanitized text (only `<h1>`
      kept) in body and controls. */
  function View(env: Env, store: Store, listing: seq<string>, pageId: string): (r: Response)
    ensures r.store == store
    ensures var key := env.base(pageId);
            r.ops == if Rejected(key) then [] else [ReadOp(key)]
    ensures var key := env.base(pageId);
            r.outcome.ForwardError? <==> Rejected(key) || key !in store || env.refuses(ReadOp(key))
    ensures var key := env.base(pageId);
            !Rejected(key) && key in store && !env.refuses(ReadOp(key)) ==>
              r.outcome == SendPage(NoteView(listing, pageId, env.sanitize(pageId), env.sanitizeH1(store[key])))
  {
    var key := env.base(pageId);
    if Rejected(key) then Response(store, ForwardError, [])
    else
      match ReadFile(store, key, env.refuses(ReadOp(key)))
      case None => Response(store, ForwardError, [ReadOp(key)])
      case Some(description) =>
        Response(store, SendPage(NoteView(listing, pageId, env.sanitize(pageId), env.sanitizeH1(description))), [ReadOp(key)])
  }

  // ---------------------------------------------------------------------
  // Which files a handler can reach
  // ---------------------------------------------------------------------

  /** The handlers that pass the id through the base-name filter (update
      form, delete, view) never name a key containing `/`. (The base names
      `..`, `.` and the empty name still denote directories, not notes.) */
  lemma FilteredHandlersConfined(env: Env, store: Store, listing: seq<string>, id: string)
    requires ValidEnv(env)
    ensures forall k :: k in Keys(UpdateForm(env, store, listing, id).ops) ==> '/' !in k
    ensures forall k :: k in Keys(DeleteProcess(env, store, id).ops) ==> '/' !in k
    ensures forall k :: k in Keys(View(env, store, listing, id).ops) ==> '/' !in k
  {
    KeysOfOne(ReadOp(env.base(id)));
    KeysOfOne(UnlinkOp(env.base(id)));
  }

  /** The handlers that use the title as given (create and update) name the
      raw title whatever the environment: no filter removes a `/` or a `..`
      segment, so a title such as `../password.txt` names a file outside the
      data directory. */
  lemma RawHandlersUnfiltered(env: Env, store: Store, id: string, title: string, description: string)
    ensures !Rejected(title) ==> Keys(CreateProcess(env, store, title, description).ops) == {title}
    ensures !Rejected(id) && !Rejected(title) ==>
              Keys(UpdateProcess(env, store, id, title, description).ops) == {id, title}
  {
    KeysOfOne(WriteOp(title));
    if Rejected(id) || Rejected(title) {
    } else if id in store && !env.refuses(RenameOp(id, title)) {
      KeysOfTwo(RenameOp(id, title), WriteOp(title));
    } else {
      KeysOfOne(RenameOp(id, title));
    }
  }

  /** Node accepts both paths of the example: neither holds a NUL. */
  lemma PasswordPathsAccepted()
    ensures !Rejected("../password.txt") && !Rejected("password.txt")
  {
    var p := "../password.txt";
    assert p == ".." + ['/'] + "password.txt";
    assert forall i :: 0 <= i < |p| ==> p[i] != '\0';
  }

  /** The same request path in both directions: with the POSIX base name,
      viewing `../password.txt` reads `password.txt` inside the data
      directory, while creating a note titled `../password.txt` writes outside
      it. */
  lemma ViewFiltersWhatCreateDoesNot(env: Env, store: Store, listing: seq<string>, description: string)
    requires env.base == PosixBase
    ensures View(env, store, listing, "../password.txt").ops == [ReadOp("password.txt")]
    ensures CreateProcess(env, store, "../password.txt", description).ops == [WriteOp("../password.txt")]
    ensures !env.refuses(WriteOp("../password.txt")) ==>
              CreateProcess(env, store, "../password.txt", description).store["../password.txt"] == description
  {
    PasswordPathsAccepted();
    PosixBaseOfPath("..", "password.txt");
    assert env.base("../password.txt") == PosixBase("../password.txt");
  }

  // ---------------------------------------------------------------------
  // Single-handler laws
  // ---------------------------------------------------------------------

  /** Deleting twice is deleting once: the second request finds nothing (or
      is refused as the first was) and answers as the first did. */
  lemma DeleteIdempotent(env: Env, store: Store, id: string)
    ensures var once := DeleteProcess(env, store, id);
            DeleteProcess(env, once.store, id) == once
  {
  }

  /** Writing the same title twice keeps only the second text. */
  lemma CreateOverwrites(env: Env, store: Store, title: string, d1: string, d2: string)
    requires !env.refuses(WriteOp(title))
    ensures var first := CreateProcess(env, store, title, d1);
            CreateProcess(env, first.store, title, d2).store == CreateProcess(env, store, title, d2).store
  {
    if !Rejected(title) {
      var first := CreateProcess(env, store, title, d1);
      assert first.store == store[title := d1];
    }
  }

  /** Updating a note under its own name (the name the update form shows as
      both id and title) with its stored text leaves the store as it was and
      redirects to the note. */
  lemma UnchangedEditIsNoop(env: Env, store: Store, listing: seq<string>, updateId: string)
    requires env.base(updateId) in store
    requires !env.refuses(RenameOp(env.base(updateId), env.base(updateId)))
    requires !env.refuses(WriteOp(env.base(updateId)))
    ensures var name := env.base(updateId);
            !Rejected(name) && !env.refuses(ReadOp(name)) ==>
              var form := UpdateForm(env, store, listing, updateId);
              && form.outcome == SendPage(UpdateView(listing, name, store[name]))
              && var r := UpdateProcess(env, store, form.outcome.page.id, form.outcome.page.id, form.outcome.page.description);
                 r.store == store && r.outcome == Redirect302("/topic/" + name)
  {
    var name := env.base(updateId);
    RenameSelf(store, name);
    assert store[name := store[name]] == store;
  }
}

=== FILE: workflows.dfy ===
/** How the handlers compose: what a later request sees after an earlier one
    changed the store. */
module Workflows {
  import opened NoteStore
  import opened Platform
  import opened Http
  import opened Pages
  import opened Topic

  /** A directory listing of `store`: every listed name is a note, every note
      directly inside the data directory is listed, and no name twice. A real
      `readdir` also lists subdirectories, so when the store holds a key such
      as `sub/x` (which implies a directory `sub`) the real listing names
      `sub`, which is no key, and does not meet this predicate. */
  ghost predicate IsListingOf(listing: seq<string>, store: Store)
  {
    && (forall i :: 0 <= i < |listing| ==> listing[i] in store)
    && (forall k :: k in store && '/' !in k ==> k in listing)
    && (forall i, j :: 0 <= i < j < |listing| ==> listing[i] != listing[j])
  }

  /** After a note is created, viewing its title (one the base-name filter
      keeps as it is) shows the sanitized title and text. The redirect itself
      need not lead there: `encodeURI` keeps `?` and `#`, the browser removes
      dot segments, and `/topic/create` is routed to the create form. */
  lemma CreateThenView(env: Env, store: Store, listing: seq<string>, title: string, description: string)
    requires !env.refuses(WriteOp(title)) && env.base(title) == title
    ensures var c := CreateProcess(env, store, title, description);
            !Rejected(title) && !env.refuses(ReadOp(title)) ==>
              View(env, c.store, listing, title).outcome
                == SendPage(NoteView(listing, title, env.sanitize(title), env.sanitizeH1(description)))
    ensures var c := CreateProcess(env, store, title, description);
            Rejected(title) || env.refuses(ReadOp(title)) ==> View(env, c.store, listing, title).outcome == ForwardError
  {
  }

  /** After a note is created, any listing of the store names it, so the home
      page links to it. */
  lemma CreateThenListed(env: Env, store: Store, listing: seq<string>, title: string, description: string)
    requires !env.refuses(WriteOp(title)) && '/' !in title
    requires IsListingOf(listing, CreateProcess(env, store, title, description).store)
    ensures !Rejected(title) ==> exists i :: 0 <= i < |listing| && listing[i] == title
  {
    if !Rejected(title) {
      var c := CreateProcess(env, store, title, description);
      assert title in c.store;
      assert title in listing;
    }
  }

  /** After a successful rename-and-rewrite, the new name shows the new text
      and, when the name changed, the old name is gone; both for names the
      base-name filter keeps as they are, since the view reads the base name
      (an update to `sub/x` is viewed as `x`). */
  lemma UpdateThenView(env: Env, store: Store, listing: seq<string>, id: string, title: string, description: string)
    requires UpdateProcess(env, store, id, title, description).outcome.Redirect302?
    requires env.base(title) == title
    ensures var u := UpdateProcess(env, store, id, title, description);
            !env.refuses(ReadOp(title)) ==>
              View(env, u.store, listing, title).outcome
                == SendPage(NoteView(listing, title, env.sanitize(title), env.sanitizeH1(description)))
    ensures var u := UpdateProcess(env, store, id, title, description);
            id != title && env.base(id) == id ==> View(env, u.store, listing, id).outcome == ForwardError
  {
  }

  /** After a delete, viewing the same id goes to the error middleware, since
      both handlers filter the id the same way; when the unlink was refused,
      the note is still there and the view is as before. */
  lemma DeleteThenView(env: Env, store: Store, listing: seq<string>, id: string)
    ensures !env.refuses(UnlinkOp(env.base(id))) ==>
              View(env, DeleteProcess(env, store, id).store, listing, id).outcome == ForwardError
    ensures env.refuses(UnlinkOp(env.base(id))) ==>
              View(env, DeleteProcess(env, store, id).store, listing, id) == View(env, store, listing, id)
  {
  }

  /** A failed create (a refused write) or a failed rename (a missing note or
      a refused rename) leaves every later view as it was. */
  lemma FailedWriteIsInvisible(env: Env, store: Store, listing: seq<string>, id: string, title: string, description: string, pageId: string)
    ensures env.refuses(WriteOp(title)) ==>
              View(env, CreateProcess(env, store, title, description).store, listing, pageId) == View(env, store, listing, pageId)
    ensures id !in store || env.refuses(RenameOp(id, title)) ==>
              View(env, UpdateProcess(env, store, id, title, description).store, listing, pageId) == View(env, store, listing, pageId)
  {
  }
}
